=== FILE: README.md ===
# nRF9160 GNSS sample: event handoff and deferred work, in Dafny

This project models the core of the nRF9160 GNSS sample
(`samples/nrf9160/gnss/src/main.c`). That core is the layer that takes
notifications from the modem's GNSS receiver and hands them to the sample's
`main` loop and its work queue. Each execution context's handler is one
**atomic step** over a single immutable state record (`SampleState.State`).
There is no interleaving model. The steps are:

- `gnss_event_handler` (module `Dispatcher`). It runs in the modem library's
  notification context. It overwrites the PVT slot and gives the PVT
  semaphore, whose limit is 1. It allocates NMEA frames, reads them and puts
  them on the 10-slot `nmea_queue` without waiting, freeing each frame on
  every failure path. It computes the TTFF time to fix and schedules two
  work items. It stores A-GPS requests and submits the fetch.
- one iteration of `main`'s `for (;;)` loop (module `Consumer`). It takes
  the pending PVT, counts its satellites, runs the search spinner and the
  TTFF `time_blocked` counter, and dequeues, prints and frees the oldest
  NMEA frame. Output is suppressed while output is paused.
- the work items on `gnss_work_q`. `agps_data_get_work_fn` (module `Agps`)
  applies the SUPL and minimal-assistance filters and raises the
  `requesting_assistance` flag around the fetch. The TTFF `prepare`,
  `start` and `got_fix` work functions are in module `Ttff`, together with
  the cold-start delete mask.
- module `System` puts these together as a transition system and proves
  cross-step properties about it:
  - the frame-ownership and bounded-queue invariant;
  - PVT coalescing across any number of events;
  - bursts of NMEA frames, and draining them in FIFO order;
  - the TTFF cycle;
  - the output pause around an assistance fetch.

The Zephyr objects involved (`k_sem` with a limit, a bounded `k_msgq`) are
modelled as values in module `Kernel`. The modem library's frame layouts
and flag bits are in module `Gnss`. `nrf_modem_gnss.h` is not part of this
model. Its flag values are the library's published ones, and the proofs
only need each flag to be a distinct single bit.

Build options (`CONFIG_GNSS_SAMPLE_*`) are the boolean fields of
`SampleState.Config`. The code tests SUPL and MINIMAL with independent
`#if`s, so the model does not assume they exclude each other. Every call
into code the model cannot see is an input of the step. That covers the
results of:

- `nrf_modem_gnss_read`;
- `k_malloc`;
- `nrf_modem_gnss_nv_data_delete`;
- `nrf_modem_gnss_start`;
- `assistance_request`;
- `assistance_is_active`;
- `k_uptime_get`.

Two environment guarantees appear as preconditions:

- memory from `k_malloc` is not already live;
- uptime does not run backwards past `fix_timestamp`.

One behaviour of the modem library is assumed rather than made an input: a
failed `nrf_modem_gnss_read` leaves its destination (`last_pvt`,
`last_agps`) as it was (see "Left out").

Fixed widths are written out:

- `cnt` is a `uint8_t` that wraps;
- `time_blocked` is a `uint32_t` that wraps;
- `time_to_fix` keeps the low 32 bits of the elapsed seconds.

Points of `main.c` that shape the model:

- one loop iteration dequeues **one** NMEA frame (lines 642-650);
- `time_blocked` counts a deadline-missed PVT **only when that PVT is not
  rendered** (lines 633-640);
- pausing the output suppresses PVT rendering (lines 603-604) as well as
  NMEA printing (line 646);
- the TTFF time to fix is measured from `fix_timestamp` (line 90). The main
  loop also moves `fix_timestamp` whenever it renders a valid fix (line 622),
  so the origin is not only the cycle start (`System.RenderedFixMovesTtffOrigin`).

## Model

| member | source | states |
|---|---|---|
| Kernel.SemGive | samples/nrf9160/gnss/src/main.c:48 | a give leaves the count at min(count + 1, limit): it never exceeds the limit, never lowers the count, and is a no-op only at the limit |
| Kernel.SemGiveManySaturates | samples/nrf9160/gnss/src/main.c:78-83 | any number of gives without a take leaves the semaphore at min(count + n, limit), so with limit 1 only one notification is ever pending |
| Kernel.SemTake | samples/nrf9160/gnss/src/main.c:599-600 | a non-blocking take succeeds exactly when the count is positive and then lowers it by one |
| Kernel.SemGiveTakeRoundTrip | samples/nrf9160/gnss/src/main.c:599-600 | a take after one give on an empty semaphore succeeds and empties it again |
| Kernel.MsgqPut | samples/nrf9160/gnss/src/main.c:108 | a non-blocking put succeeds exactly when the queue has room, appends at the tail, and on a full queue fails and leaves it unchanged; the capacity bound is kept |
| Kernel.MsgqGet | samples/nrf9160/gnss/src/main.c:643 | a get yields nothing exactly on an empty queue, else the head, leaving the rest in order |
| Kernel.MsgqFifo | samples/nrf9160/gnss/src/main.c:108 | a message put on a queue comes out after everything already in it |
| Kernel.MsgqPutAllKeepsPrefix | samples/nrf9160/gnss/src/main.c:108-113 | a burst of puts keeps exactly the messages that fit, in arrival order, and drops the rest |
| Satellites.Count | samples/nrf9160/gnss/src/main.c:527-543 | in_fix <= tracked <= table length and unhealthy <= tracked |
| Satellites.CountIsSlotCardinality | samples/nrf9160/gnss/src/main.c:531-543 | each counter is the number of table slots with sv > 0 (and the flag in question); entries with sv == 0 are never counted |
| Satellites.SatelliteStats | samples/nrf9160/gnss/src/main.c:525-543 | the counting loop computes the counters of the whole table; tracked <= NRF_MODEM_GNSS_MAX_SATELLITES, so the uint8_t counters cannot wrap |
| Agps.SuplIgnoresOnlyIntegrity | samples/nrf9160/gnss/src/main.c:194-199 | the SUPL filter drops only requests with no ephemeris, no almanac and integrity as the only category; when no unknown flag bit is set, it drops every such request |
| Agps.SuplFilterIsExactMatch | samples/nrf9160/gnss/src/main.c:194-196 | the SUPL test is an equality on data_flags, so an integrity request with an extra unknown bit is fetched |
| Agps.MinimalIgnoresNoTimeNoPosition | samples/nrf9160/gnss/src/main.c:206-210 | the minimal-assistance filter drops exactly the requests asking for neither GPS time nor position |
| Agps.AllDataRequest | samples/nrf9160/gnss/src/main.c:290-299 | the cold-start request asks for every satellite's ephemeris and almanac (both masks 0xffffffff), for UTC, Klobuchar, system time, position and integrity, not NeQuick, and has no unknown flag bit |
| Agps.AllDataRequestPassesFilters | samples/nrf9160/gnss/src/main.c:194-211 | under any configuration, the all-data request passes both filters |
| Agps.AgpsWorkBegin | samples/nrf9160/gnss/src/main.c:213-224 | a filtered request changes nothing; otherwise requesting_assistance is raised and exactly that request is handed to the fetch, nothing else changing |
| Agps.AgpsWorkEnd | samples/nrf9160/gnss/src/main.c:224-233 | whatever the fetch returned, requesting_assistance is false on return and nothing else changes |
| Agps.AgpsDataGetWork | samples/nrf9160/gnss/src/main.c:184-234 | the whole work function: a filtered request changes nothing, else exactly one fetch of the stored request is logged and the flag is down on return |
| Ttff.ColdStartDeleteMask | samples/nrf9160/gnss/src/main.c:254-267 | the mask never has the TCXO-offset bit, has the almanac bit iff minimal assistance is off, always has the other seven listed bits, and has no bit outside the nine stored items |
| Ttff.ColdStartDeletesAllButKept | samples/nrf9160/gnss/src/main.c:254-267 | the mask deletes exactly the stored items the cold start does not keep (the TCXO offset, and the almanac under minimal assistance) |
| Ttff.Prepare | samples/nrf9160/gnss/src/main.c:278-312 | under cold start the delete is issued with the cold-start mask; if it fails nothing is submitted; otherwise start is submitted, preceded by the all-data request and its fetch under cold start with assistance |
| Ttff.Start | samples/nrf9160/gnss/src/main.c:314-324 | a failed receiver start changes nothing; a successful one resets time_blocked to 0 and sets fix_timestamp to the start time |
| Ttff.TimeToFix | samples/nrf9160/gnss/src/main.c:90 | the elapsed time in whole seconds, rounded down, when it fits in 32 bits |
| Dispatcher.HandlePvt | samples/nrf9160/gnss/src/main.c:78-83 | a successful read overwrites the slot and leaves exactly one pending notification; a failed read changes nothing |
| Dispatcher.HandleFix | samples/nrf9160/gnss/src/main.c:86-94 | in TTFF mode it stores the time to fix and schedules exactly one got_fix after 100 ms and one prepare after the interval; otherwise nothing |
| Dispatcher.HandleNmea | samples/nrf9160/gnss/src/main.c:97-114 | allocation failure changes nothing; the frame is queued with its text iff the read succeeded and the queue had room, otherwise it is freed and queue and heap are as before |
| Dispatcher.HandleAgpsReq | samples/nrf9160/gnss/src/main.c:116-125 | with assistance compiled in, a successful read stores the request and submits the fetch once; otherwise nothing changes |
| System.AgpsRequestIsWhatGetsFetched | samples/nrf9160/gnss/src/main.c:116-234 | the request an A-GPS event stores is exactly what the submitted work item then fetches, unless a filter drops it, and the flag is down afterwards |
| Dispatcher.HandleEvent | samples/nrf9160/gnss/src/main.c:72-130 | only PVT events touch the slot, only NMEA events touch the frames, and no event touches the output-pause flag or the TTFF counters |
| Consumer.OutputPaused | samples/nrf9160/gnss/src/main.c:516-523 | output is never paused when assistance or logging is compiled out; otherwise it is paused while the sample's own fetch is in progress and while the assistance module reports itself active, and for no other reason |
| Consumer.IndicatorGlyph | samples/nrf9160/gnss/src/main.c:627-628 | the spinner index cnt % 4 always falls inside update_indicator |
| Consumer.IndicatorAdvancesCyclically | samples/nrf9160/gnss/src/main.c:627-628 | each search step shows the next glyph, also across the uint8_t wrap |
| Consumer.ConsumePvt | samples/nrf9160/gnss/src/main.c:599-640 | a PVT is taken iff one is pending, and it is the slot's; it is rendered iff not NMEA-only and output is not paused, showing the satellite counts of its table and, without a fix, the next spinner glyph; fix_timestamp moves only on a rendered valid fix and cnt only on a rendered search; time_blocked increases by one only outside the render branch, in TTFF mode, on a missed deadline |
| Consumer.ConsumeNmea | samples/nrf9160/gnss/src/main.c:642-650 | the head frame is dequeued and freed whether or not it is printed; its text is printed iff output is not paused; the rest of the queue is untouched |
| Consumer.ConsumerStep | samples/nrf9160/gnss/src/main.c:596-654 | one iteration clears the PVT flag, takes the pending PVT and the head frame if present, renders the PVT and prints the frame's text exactly when the pause allows, frees the frame, moves fix_timestamp, cnt and time_blocked only as the PVT branch says, and changes nothing else (slot contents, requests, time_to_fix, all logs) |
| SampleState.Init | samples/nrf9160/gnss/src/main.c:38-48 | the state at the top of the loop satisfies the invariant: empty queue, no live frame, semaphore 0, no fetch in progress, time_to_fix, time_blocked and cnt zero (cnt from line 574), fix_timestamp the start uptime; in TTFF mode the first prepare is already scheduled with no delay (lines 504-505), otherwise nothing is submitted; nothing fetched or deleted yet |
| System.HandleNmeaKeepsOwnership | samples/nrf9160/gnss/src/main.c:97-114 | no leak: the allocated frame stays live iff it is queued, iff the read succeeded and the queue had room; ownership and the bound of 10 are kept |
| System.ConsumerStepKeepsInv | samples/nrf9160/gnss/src/main.c:642-650 | the dequeue and free keep frame ownership and the queue bound |
| System.NextPreservesInv | samples/nrf9160/gnss/src/main.c:47-48 | every step keeps: at most 10 queued frames, each live frame owned by exactly one queue slot, at most one pending PVT, no fetch in progress between steps |
| System.NmeaBurstIsPutAll | samples/nrf9160/gnss/src/main.c:104-113 | a burst of NMEA events acts on the queue as the same burst of non-blocking puts, keeping the invariant |
| System.NmeaBurstKeepsFirstThatFit | samples/nrf9160/gnss/src/main.c:97-114 | a burst keeps exactly the frames that fit, in arrival order, and frees the rest |
| System.DrainIsFifo | samples/nrf9160/gnss/src/main.c:642-650 | successive iterations take frames in queue order, one each, leaving the remaining suffix queued |
| System.DrainKeepsInv | samples/nrf9160/gnss/src/main.c:642-650 | any number of iterations keep frame ownership and the queue bound |
| System.DrainShowsTextsInOrder | samples/nrf9160/gnss/src/main.c:646-648 | while output is not paused, successive iterations print the queued frames' texts in queue order |
| System.BurstThenDrainDeliversFirstTen | samples/nrf9160/gnss/src/main.c:47 | from an empty queue, a burst followed by as many iterations delivers exactly the first 10 frames in order and leaves no frame allocated |
| System.PvtEvents | samples/nrf9160/gnss/src/main.c:78-83 | a sequence of PVT events never lets more than one notification be pending and changes nothing but the slot and its flag |
| System.PvtEventsFollowLastRead | samples/nrf9160/gnss/src/main.c:78-83 | after any sequence of PVT events the slot equals the last successful read of a separately defined backwards scan (or is unchanged if none), and the flag is 1 iff that scan finds one (or it already was) |
| System.PvtCoalesces | samples/nrf9160/gnss/src/main.c:78-83 | after any sequence of PVT events, the flag is raised iff some read succeeded (or it already was), and the slot holds the last successful read |
| System.ConsumerSeesLatestPvt | samples/nrf9160/gnss/src/main.c:599-600 | the next iteration takes that last successful PVT and clears the flag |
| System.TimeBlockedChanges | samples/nrf9160/gnss/src/main.c:633-640 | time_blocked is reset only by a successful start; otherwise it changes only in an iteration that takes a deadline-missed PVT outside the render branch in TTFF mode, by one |
| System.TtffCycle | samples/nrf9160/gnss/src/main.c:238-324 | prepare, start and a FIX event measure from the start time, reset time_blocked, and schedule start, then exactly one got_fix and one prepare, in that order; the got_fix report then shows the time to fix and no blocked-by-LTE line |
| System.FailedColdStartSubmitsNothing | samples/nrf9160/gnss/src/main.c:283-287 | when the cold-start delete fails, prepare submits no work |
| System.RenderedFixMovesTtffOrigin | samples/nrf9160/gnss/src/main.c:621-622 | in TTFF mode a rendered valid fix moves fix_timestamp, so a FIX handled at the same uptime measures zero |
| System.FetchPausesOutput | samples/nrf9160/gnss/src/main.c:213-233 | during a fetch an iteration prints nothing (logging on) but still dequeues and frees; after the work function the flag is down whatever the fetch returned |

## Left out

- `modem_init`, `lte_connect`, `lte_disconnect`, `lte_lc_event_handler`,
  `date_time_evt_handler`, `sample_init`: AT commands, LTE attach and
  library initialisation are I/O plumbing. The LTE on-demand connect and
  disconnect around the fetch are left out for the same reason.
- `gnss_init_and_start`: apart from its last step, a sequence of foreign
  configuration calls (handler, use-case mask, power mode, and `fix_retry` /
  `fix_interval` chosen per mode, 0/0 in TTFF mode) whose effect is on the
  receiver. Its last step is modelled in `SampleState.Init`: the first
  `prepare` scheduled at once in TTFF mode, otherwise a receiver start. The
  early returns on a failed call are not modelled; `Init` is the state
  after a successful bring-up.
- `print_fix_data` and all `printk` formatting: floating-point rendering and
  terminal escapes. Output is kept only as data, as which PVT or text would
  be shown.
- `nrf_modem_recoverable_error_handler`: it only logs.
- Thread interleaving and `k_poll` blocking. Each handler, work function and
  loop iteration is atomic. An iteration with nothing ready is a step that
  changes nothing.
- Work-queue timing: submissions are an ordered log with nominal delays.
  The model does not cover when items run. It also does not cover Zephyr
  ignoring a re-submission of an item that is already pending.
- The receiver's on/off state: the code ignores the results of
  `nrf_modem_gnss_stop` and of the start/stop pair in `prepare`.
- `assistance_request` and `assistance_is_active`: their code is not part
  of this model. They are a success input (whose value only affects a log
  line) and boolean inputs.
- PVT fields other than `flags` and the satellite table: only printed.
- The NMEA frame's fixed-size text buffer: text is an unbounded string.
- Dispatcher.HandlePvt, Dispatcher.HandleAgpsReq: a failed `nrf_modem_gnss_read`
  is assumed to leave `last_pvt` and `last_agps` untouched. The library's
  behaviour on a failed read is not part of this model, and
  `System.PvtCoalesces`' "the slot holds the last successful read" rests on
  this assumption.
- Wrap-around of 64-bit uptime arithmetic. Uptime is a natural number that
  does not run backwards.


=== FILE: agps.dfy ===
/** `agps_data_get_work_fn`: the work item that decides whether the receiver's
    last A-GPS request is worth fetching and, if so, hands it to the
    assistance module while `requesting_assistance` pauses the output. */
module Agps {
  import opened Gnss
  import opened SampleState

  /** The assistance categories the request's `data_flags` can name. */
  datatype Category = GpsUtc | Klobuchar | Nequick | SysTime | Position | Integrity

  function CategoryBit(c: Category): bv32
  {
    match c
    case GpsUtc => AgpsGpsUtcRequest
    case Klobuchar => AgpsKlobucharRequest
    case Nequick => AgpsNequickRequest
    case SysTime => AgpsSysTimeAndSvTowRequest
    case Position => AgpsPositionRequest
    case Integrity => AgpsIntegrityRequest
  }

  /** The categories a request asks for, read off its flag bits. */
  function Categories(req: AgpsRequest): set<Category>
  {
    set c: Category | c in {GpsUtc, Klobuchar, Nequick, SysTime, Position, Integrity}
                      && HasFlag32(req.dataFlags, CategoryBit(c))
  }

  /** Flag bits outside every known category. */
  predicate HasUnknownFlags(req: AgpsRequest)
  {
    req.dataFlags & !(AgpsGpsUtcRequest | AgpsKlobucharRequest | AgpsNequickRequest
                      | AgpsSysTimeAndSvTowRequest | AgpsPositionRequest
                      | AgpsIntegrityRequest) != 0
  }

  /** The SUPL filter: a request for satellite integrity and nothing else. */
  predicate SuplIgnores(req: AgpsRequest)
  {
    && req.svMaskEphe == 0
    && req.svMaskAlm == 0
    && req.dataFlags == AgpsIntegrityRequest
  }

  /** The minimal-assistance filter: neither GPS time nor position requested. */
  predicate MinimalIgnores(req: AgpsRequest)
  {
    && !HasFlag32(req.dataFlags, AgpsSysTimeAndSvTowRequest)
    && !HasFlag32(req.dataFlags, AgpsPositionRequest)
  }

  /** Whether the work function returns before touching anything. */
  predicate Ignored(cfg: Config, req: AgpsRequest)
  {
    (cfg.supl && SuplIgnores(req)) || (cfg.minimal && MinimalIgnores(req))
  }

  /** The SUPL filter drops exactly the requests that ask for no ephemerides,
      no almanacs and integrity as their only category, provided the flags
      carry no bit outside the known categories. */
  lemma SuplIgnoresOnlyIntegrity(req: AgpsRequest)
    ensures SuplIgnores(req) ==>
              req.svMaskEphe == 0 && req.svMaskAlm == 0 && Categories(req) == {Integrity}
    ensures (req.svMaskEphe == 0 && req.svMaskAlm == 0 && Categories(req) == {Integrity}
             && !HasUnknownFlags(req)) ==> SuplIgnores(req)
  {
    assert Integrity in {GpsUtc, Klobuchar, Nequick, SysTime, Position, Integrity};
    if req.svMaskEphe == 0 && req.svMaskAlm == 0 && Categories(req) == {Integrity}
       && !HasUnknownFlags(req) {
      var f := req.dataFlags;
      assert GpsUtc !in Categories(req);
      assert Klobuchar !in Categories(req);
      assert Nequick !in Categories(req);
      assert SysTime !in Categories(req);
      assert Position !in Categories(req);
      assert f & 0x01 == 0 && f & 0x02 == 0 && f & 0x04 == 0 && f & 0x08 == 0 && f & 0x10 == 0;
      assert f & 0x20 != 0;
      assert f & !0x3F == 0;
    }
  }

  /** A request with an extra unknown flag next to integrity is not dropped
      by the SUPL filter: the test is an equality, not a mask. */
  lemma SuplFilterIsExactMatch()
    ensures !SuplIgnores(AgpsRequest(0, 0, AgpsIntegrityRequest | 0x80))
    ensures Categories(AgpsRequest(0, 0, AgpsIntegrityRequest | 0x80)) == {Integrity}
  {
  }

  /** The minimal filter drops exactly the requests whose categories miss
      both GPS time and position. */
  lemma MinimalIgnoresNoTimeNoPosition(req: AgpsRequest)
    ensures MinimalIgnores(req) <==> SysTime !in Categories(req) && Position !in Categories(req)
  {
  }

  /** The request the TTFF cold-start preparation builds: every satellite's
      ephemeris and almanac, and UTC, Klobuchar, time, position, integrity. */
  function AllDataRequest(): (req: AgpsRequest)
    ensures req.svMaskEphe == 0xffff_ffff && req.svMaskAlm == 0xffff_ffff
    ensures Categories(req) == {GpsUtc, Klobuchar, SysTime, Position, Integrity}
    ensures !HasUnknownFlags(req)
  {
    var req := AgpsRequest(0xffff_ffff, 0xffff_ffff,
                           AgpsGpsUtcRequest | AgpsKlobucharRequest
                           | AgpsSysTimeAndSvTowRequest | AgpsPositionRequest
                           | AgpsIntegrityRequest);
    assert GpsUtc in Categories(req) && Klobuchar in Categories(req) && SysTime in Categories(req);
    assert Position in Categories(req) && Integrity in Categories(req);
    assert Nequick !in Categories(req);
    req
  }

  /** Whatever the configuration, the all-data request gets past both filters. */
  lemma AllDataRequestPassesFilters(cfg: Config)
    ensures !Ignored(cfg, AllDataRequest())
  {
  }

  /** The work function up to and including the `assistance_request` call:
      past the filters the flag is raised and the request is handed over. */
  function AgpsWorkBegin(cfg: Config, s: State): (r: State)
    requires !cfg.assistanceNone
    ensures Ignored(cfg, s.lastAgps) ==> r == s
    ensures !Ignored(cfg, s.lastAgps) ==>
              && r.requestingAssistance
              && r.fetchLog == s.fetchLog + [s.lastAgps]
              && r.(requestingAssistance := s.requestingAssistance, fetchLog := s.fetchLog) == s
  {
    if Ignored(cfg, s.lastAgps) then s
    else s.(requestingAssistance := true, fetchLog := s.fetchLog + [s.lastAgps])
  }

  /** The rest of the work function, after `assistance_request` returned:
      its error is only logged, and the flag drops whatever it was. */
  function AgpsWorkEnd(s: State, fetchOk: bool): (r: State)
    ensures !r.requestingAssistance
    ensures r.(requestingAssistance := s.requestingAssistance) == s
  {
    s.(requestingAssistance := false)
  }

  /** The whole work function as one step. */
  function AgpsDataGetWork(cfg: Config, s: State, fetchOk: bool): (r: State)
    requires !cfg.assistanceNone
    ensures Ignored(cfg, s.lastAgps) ==> r == s
    ensures !Ignored(cfg, s.lastAgps) ==> r.fetchLog == s.fetchLog + [s.lastAgps]
    ensures !Ignored(cfg, s.lastAgps) ==> !r.requestingAssistance
    ensures r.(fetchLog := s.fetchLog, requestingAssistance := s.requestingAssistance) == s
  {
    if Ignored(cfg, s.lastAgps) then s
    else AgpsWorkEnd(AgpsWorkBegin(cfg, s), fetchOk)
  }
}

=== FILE: common.dfy ===
/** Small shared vocabulary: an optional value and the fixed-width unsigned
    integers the sample declares (`uint8_t`, `uint16_t`, `uint32_t`), with the
    C wrap-around of `++` written out. */
module Common {

  datatype Option<+T> = None | Some(value: T)

  const U8Modulus: nat := 0x100
  const U32Modulus: nat := 0x1_0000_0000

  type u8 = x: nat | x < 0x100
  type u16 = x: nat | x < 0x1_0000
  type u32 = x: nat | x < 0x1_0000_0000

  /** `x++` on a `uint8_t`. */
  function Inc8(x: u8): (r: u8)
    ensures x < U8Modulus - 1 ==> r == x + 1
    ensures x == U8Modulus - 1 ==> r == 0
  {
    (x + 1) % U8Modulus
  }

  /** `x++` on a `uint32_t`. */
  function Inc32(x: u32): (r: u32)
    ensures x < U32Modulus - 1 ==> r == x + 1
    ensures x == U32Modulus - 1 ==> r == 0
  {
    (x + 1) % U32Modulus
  }

  /** Assignment of a wider unsigned value to a `uint32_t`: keeps the low 32 bits. */
  function TruncU32(x: nat): (r: u32)
    ensures x < U32Modulus ==> r == x
  {
    x % U32Modulus
  }

  function Min(a: nat, b: nat): nat
  {
    if a <= b then a else b
  }
}

=== FILE: consumer.dfy ===
/** One iteration of `main`'s `for (;;)` loop, after `k_poll` has returned:
    take the pending PVT if the semaphore is available, take the oldest NMEA
    frame if the queue is not empty, render each unless output is paused,
    and free the frame in every case.  When neither is ready the iteration
    would still be blocked in `k_poll`, which the model shows as a step that
    changes nothing. */
module Consumer {
  import opened Common
  import opened Gnss
  import opened SampleState
  import Kernel
  import Satellites

  /** `update_indicator[]`, the spinner shown while searching. */
  const UpdateIndicator: seq<char> := ['\\', '|', '/', '-']

  /** `update_indicator[cnt % 4]`: always inside the array. */
  function IndicatorGlyph(cnt: u8): (c: char)
    ensures c in UpdateIndicator
  {
    UpdateIndicator[cnt % 4]
  }

  /** Because 256 is a multiple of 4, the `uint8_t` counter's wrap-around does
      not break the spinner's cycle: each search step shows the next glyph. */
  lemma IndicatorAdvancesCyclically(cnt: u8)
    ensures IndicatorGlyph(Inc8(cnt)) == UpdateIndicator[(cnt % 4 + 1) % 4]
  {
  }

  /** `output_paused()`; `assistanceActive` is what `assistance_is_active()`
      answered at the time.  Output is never paused when assistance or logging
      is compiled out, and always paused while the sample's own fetch runs. */
  predicate OutputPaused(cfg: Config, requestingAssistance: bool, assistanceActive: bool): (paused: bool)
    ensures paused ==> !cfg.assistanceNone && !cfg.logLevelOff
    ensures !cfg.assistanceNone && !cfg.logLevelOff && requestingAssistance ==> paused
    ensures !cfg.assistanceNone && !cfg.logLevelOff && assistanceActive ==> paused
    ensures paused ==> requestingAssistance || assistanceActive
  {
    if cfg.assistanceNone || cfg.logLevelOff then false
    else requestingAssistance || assistanceActive
  }

  /** The uptime and the two answers of `assistance_is_active()` (one per
      `output_paused()` call) during the iteration. */
  datatype Env = Env(now: nat, activeAtPvt: bool, activeAtNmea: bool)

  /** What the iteration shows on the terminal, reduced to its data. */
  datatype PvtView = PvtView(stats: Satellites.SatStats, fixValid: bool, glyph: Option<char>)

  datatype Output = Output(
    pvtTaken: Option<Pvt>,        // the PVT consumed from the slot, if any
    pvtShown: Option<PvtView>,    // its rendering, unless suppressed
    frameTaken: Option<FrameId>,  // the frame dequeued (and freed), if any
    nmeaShown: Option<string>     // its text, unless suppressed
  )

  datatype StepResult = StepResult(state: State, out: Output)

  /** Whether the PVT branch renders (`!NMEA_ONLY && !output_paused()`). */
  predicate RendersPvt(cfg: Config, s: State, env: Env)
  {
    !cfg.nmeaOnly && !OutputPaused(cfg, s.requestingAssistance, env.activeAtPvt)
  }

  /** The PVT half of the iteration. */
  function ConsumePvt(cfg: Config, s: State, env: Env): (r: StepResult)
    ensures r.state.pvtSem == Kernel.SemTake(s.pvtSem).count
    ensures r.out.pvtTaken.Some? <==> s.pvtSem > 0
    ensures r.out.pvtTaken.Some? ==> r.out.pvtTaken.value == s.lastPvt
    ensures r.out.pvtShown.Some? <==> s.pvtSem > 0 && RendersPvt(cfg, s, env)
    // A valid fix, when rendered, restarts the "seconds since last fix" clock;
    // nothing else in the iteration moves it.
    ensures r.state.fixTimestamp ==
              if r.out.pvtShown.Some? && HasFlag8(s.lastPvt.flags, PvtFlagFixValid)
              then env.now else s.fixTimestamp
    // The spinner advances only when a PVT without a fix is rendered.
    ensures r.state.searchCount ==
              if r.out.pvtShown.Some? && !HasFlag8(s.lastPvt.flags, PvtFlagFixValid)
              then Inc8(s.searchCount) else s.searchCount
    // What is rendered is the slot's satellite counts, and the spinner while searching.
    ensures r.out.pvtShown.Some? ==>
              r.out.pvtShown.value
                == PvtView(Satellites.Count(s.lastPvt.sv), HasFlag8(s.lastPvt.flags, PvtFlagFixValid),
                           if HasFlag8(s.lastPvt.flags, PvtFlagFixValid) then None
                           else Some(IndicatorGlyph(Inc8(s.searchCount))))
    // `time_blocked` moves only outside the render branch, in TTFF mode, on a missed deadline.
    ensures r.state.timeBlocked ==
              if s.pvtSem > 0 && !RendersPvt(cfg, s, env) && cfg.ttffTest
                 && HasFlag8(s.lastPvt.flags, PvtFlagDeadlineMissed)
              then Inc32(s.timeBlocked) else s.timeBlocked
    ensures r.state.(pvtSem := s.pvtSem, fixTimestamp := s.fixTimestamp,
                     searchCount := s.searchCount, timeBlocked := s.timeBlocked) == s
    ensures r.out.frameTaken.None? && r.out.nmeaShown.None?
  {
    var take := Kernel.SemTake(s.pvtSem);
    if !take.taken then StepResult(s, Output(None, None, None, None))
    else
      var s1 := s.(pvtSem := take.count);
      var pvt := s.lastPvt;
      if RendersPvt(cfg, s, env) then
        var stats := Satellites.Count(pvt.sv);
        if HasFlag8(pvt.flags, PvtFlagFixValid) then
          StepResult(s1.(fixTimestamp := env.now),
                     Output(Some(pvt), Some(PvtView(stats, true, None)), None, None))
        else
          var cnt := Inc8(s.searchCount);
          StepResult(s1.(searchCount := cnt),
                     Output(Some(pvt), Some(PvtView(stats, false, Some(IndicatorGlyph(cnt)))),
                            None, None))
      else if cfg.ttffTest && HasFlag8(pvt.flags, PvtFlagDeadlineMissed) then
        StepResult(s1.(timeBlocked := Inc32(s.timeBlocked)), Output(Some(pvt), None, None, None))
      else
        StepResult(s1, Output(Some(pvt), None, None, None))
  }

  /** The NMEA half of the iteration: dequeue the oldest frame, print it
      unless output is paused, and free it either way. */
  function ConsumeNmea(cfg: Config, s: State, env: Env): (r: StepResult)
    requires forall id | id in s.nmeaQueue :: id in s.heap
    ensures s.nmeaQueue == [] ==> r.state == s && r.out.frameTaken.None?
    ensures s.nmeaQueue != [] ==>
              && r.out.frameTaken == Some(s.nmeaQueue[0])
              && r.state.nmeaQueue == s.nmeaQueue[1..]
              && r.state.heap == s.heap - {s.nmeaQueue[0]}
    ensures r.out.nmeaShown.Some? <==>
              s.nmeaQueue != [] && !OutputPaused(cfg, s.requestingAssistance, env.activeAtNmea)
    ensures r.out.nmeaShown.Some? ==> r.out.nmeaShown.value == s.heap[s.nmeaQueue[0]]
    ensures r.state.(nmeaQueue := s.nmeaQueue, heap := s.heap) == s
    ensures r.out.pvtTaken.None? && r.out.pvtShown.None?
  {
    var get := Kernel.MsgqGet(s.nmeaQueue);
    match get.item
    case None => StepResult(s, Output(None, None, None, None))
    case Some(id) =>
      var shown := if OutputPaused(cfg, s.requestingAssistance, env.activeAtNmea)
                   then None else Some(s.heap[id]);
      StepResult(s.(nmeaQueue := get.queue, heap := s.heap - {id}),
                 Output(None, None, Some(id), shown))
  }

  /** The whole iteration. */
  function ConsumerStep(cfg: Config, s: State, env: Env): (r: StepResult)
    requires forall id | id in s.nmeaQueue :: id in s.heap
    // The step clears the pending flag.
    ensures s.pvtSem <= PvtSemLimit ==> r.state.pvtSem == 0
    ensures r.out.pvtTaken.Some? <==> s.pvtSem > 0
    ensures r.out.pvtTaken.Some? ==> r.out.pvtTaken.value == s.lastPvt
    ensures r.out.frameTaken.Some? <==> s.nmeaQueue != []
    ensures s.nmeaQueue != [] ==>
              && r.out.frameTaken == Some(s.nmeaQueue[0])
              && r.state.nmeaQueue == s.nmeaQueue[1..]
              && r.state.heap == s.heap - {s.nmeaQueue[0]}
    ensures s.nmeaQueue == [] ==> r.state.nmeaQueue == s.nmeaQueue && r.state.heap == s.heap
    // Rendering: the PVT unless NMEA-only or paused, the frame's text unless paused.
    ensures r.out.pvtShown.Some? <==> s.pvtSem > 0 && RendersPvt(cfg, s, env)
    ensures r.out.pvtShown.Some? ==>
              r.out.pvtShown.value
                == PvtView(Satellites.Count(s.lastPvt.sv), HasFlag8(s.lastPvt.flags, PvtFlagFixValid),
                           if HasFlag8(s.lastPvt.flags, PvtFlagFixValid) then None
                           else Some(IndicatorGlyph(Inc8(s.searchCount))))
    ensures r.out.nmeaShown.Some? <==>
              s.nmeaQueue != [] && !OutputPaused(cfg, s.requestingAssistance, env.activeAtNmea)
    ensures r.out.nmeaShown.Some? ==> r.out.nmeaShown.value == s.heap[s.nmeaQueue[0]]
    // The loop's own variables move only as the PVT half says.
    ensures r.state.fixTimestamp ==
              if r.out.pvtShown.Some? && HasFlag8(s.lastPvt.flags, PvtFlagFixValid)
              then env.now else s.fixTimestamp
    ensures r.state.searchCount ==
              if r.out.pvtShown.Some? && !HasFlag8(s.lastPvt.flags, PvtFlagFixValid)
              then Inc8(s.searchCount) else s.searchCount
    ensures r.state.timeBlocked ==
              if s.pvtSem > 0 && !RendersPvt(cfg, s, env) && cfg.ttffTest
                 && HasFlag8(s.lastPvt.flags, PvtFlagDeadlineMissed)
              then Inc32(s.timeBlocked) else s.timeBlocked
    // Nothing else changes: slot contents, requests, the flag, the measurement and the logs.
    ensures r.state.(nmeaQueue := s.nmeaQueue, heap := s.heap, pvtSem := s.pvtSem,
                     fixTimestamp := s.fixTimestamp, searchCount := s.searchCount,
                     timeBlocked := s.timeBlocked) == s
  {
    var p := ConsumePvt(cfg, s, env);
    var n := ConsumeNmea(cfg, p.state, env);
    StepResult(n.state, Output(p.out.pvtTaken, p.out.pvtShown, n.out.frameTaken, n.out.nmeaShown))
  }
}

=== FILE: dispatcher.dfy ===
/** `gnss_event_handler`: runs in the modem library's notification context,
    never blocks, and only touches the PVT slot, the NMEA queue, the A-GPS
    request record and the work queue.  Every call into the modem library or
    the allocator is an input of the event: what `nrf_modem_gnss_read`
    returned (`None` for an error), what `k_malloc` returned (`None` for
    NULL), and the uptime when a fix arrived. */
module Dispatcher {
  import opened Common
  import opened Gnss
  import opened SampleState
  import Kernel
  import Ttff

  datatype Event =
    | PvtEvt(pvtRead: Option<Pvt>)
    | FixEvt(now: nat)
    | NmeaEvt(alloc: Option<FrameId>, nmeaRead: Option<string>)
    | AgpsReqEvt(agpsRead: Option<AgpsRequest>)
    | OtherEvt   // BLOCKED, UNBLOCKED, sleep and wakeup events: no case of their own

  /** What the environment guarantees about an event's inputs: the allocator
      returns memory that is not live, and uptime does not go backwards. */
  predicate EventWellFormed(cfg: Config, s: State, e: Event)
  {
    && (e.NmeaEvt? && e.alloc.Some? ==> e.alloc.value !in s.heap)
    && (e.FixEvt? && cfg.ttffTest ==> s.fixTimestamp <= e.now)
  }

  /** The PVT case: a successful read overwrites the slot and gives the
      semaphore; a failed read leaves everything alone. */
  function HandlePvt(s: State, read: Option<Pvt>): (r: State)
    requires s.pvtSem <= PvtSemLimit
    ensures read.None? ==> r == s
    ensures read.Some? ==> r.lastPvt == read.value && r.pvtSem == 1
    ensures r.(lastPvt := s.lastPvt, pvtSem := s.pvtSem) == s
  {
    match read
    case None => s
    case Some(pvt) => s.(lastPvt := pvt, pvtSem := Kernel.SemGive(s.pvtSem, PvtSemLimit))
  }

  /** The FIX case (TTFF test only): measure, then schedule the report and
      the next cycle's preparation. */
  function HandleFix(cfg: Config, s: State, now: nat): (r: State)
    requires cfg.ttffTest ==> s.fixTimestamp <= now
    ensures !cfg.ttffTest ==> r == s
    ensures cfg.ttffTest ==>
              && r.timeToFix == Ttff.TimeToFix(s.fixTimestamp, now)
              && r.workLog == s.workLog + [Submission(TtffGotFix, GotFixDelayMs),
                                           Submission(TtffPrepare, cfg.ttffIntervalS * 1000)]
    ensures r.(timeToFix := s.timeToFix, workLog := s.workLog) == s
  {
    if !cfg.ttffTest then s
    else
      var s1 := s.(timeToFix := Ttff.TimeToFix(s.fixTimestamp, now));
      var s2 := s1.(workLog := s1.workLog + [Submission(TtffGotFix, GotFixDelayMs)]);
      s2.(workLog := s2.workLog + [Submission(TtffPrepare, cfg.ttffIntervalS * 1000)])
  }

  /** The NMEA case: allocate, read into the frame, put its pointer on the
      queue without waiting; if the read or the put fails, free the frame. */
  function HandleNmea(s: State, alloc: Option<FrameId>, read: Option<string>): (r: State)
    requires alloc.Some? ==> alloc.value !in s.heap
    // Allocation failure changes nothing.
    ensures alloc.None? ==> r == s
    // The frame ends up queued, owning its text...
    ensures alloc.Some? && read.Some? && |s.nmeaQueue| < NmeaQueueCapacity ==>
              && r.nmeaQueue == s.nmeaQueue + [alloc.value]
              && r.heap == s.heap[alloc.value := read.value]
    // ...or freed, leaving queue and heap as they were.
    ensures !(read.Some? && |s.nmeaQueue| < NmeaQueueCapacity) ==>
              r.nmeaQueue == s.nmeaQueue && r.heap == s.heap
    ensures r.(nmeaQueue := s.nmeaQueue, heap := s.heap) == s
  {
    match alloc
    case None => s
    case Some(id) =>
      var heap1 := s.heap[id := ""];
      var heap2 := if read.Some? then heap1[id := read.value] else heap1;
      var put := if read.Some? then Kernel.MsgqPut(s.nmeaQueue, NmeaQueueCapacity, id)
                 else Kernel.PutResult(s.nmeaQueue, false);
      var heap3 := if !put.ok then heap2 - {id} else heap2;
      s.(nmeaQueue := put.queue, heap := heap3)
  }

  /** The A-GPS request case: compiled out without assistance; otherwise a
      successful read replaces the stored request and submits the fetch. */
  function HandleAgpsReq(cfg: Config, s: State, read: Option<AgpsRequest>): (r: State)
    ensures cfg.assistanceNone || read.None? ==> r == s
    ensures !cfg.assistanceNone && read.Some? ==>
              && r.lastAgps == read.value
              && r.workLog == s.workLog + [Submission(AgpsDataGet, 0)]
    ensures r.(lastAgps := s.lastAgps, workLog := s.workLog) == s
  {
    if cfg.assistanceNone || read.None? then s
    else s.(lastAgps := read.value, workLog := s.workLog + [Submission(AgpsDataGet, 0)])
  }

  /** `gnss_event_handler` as one atomic step. */
  function HandleEvent(cfg: Config, s: State, e: Event): (r: State)
    requires EventWellFormed(cfg, s, e)
    requires s.pvtSem <= PvtSemLimit
    // Only the PVT path touches the slot; only the NMEA path touches the frames.
    ensures !e.PvtEvt? ==> r.lastPvt == s.lastPvt && r.pvtSem == s.pvtSem
    ensures !e.NmeaEvt? ==> r.nmeaQueue == s.nmeaQueue && r.heap == s.heap
    // The handler never pauses output and never touches the TTFF counter.
    ensures r.requestingAssistance == s.requestingAssistance
    ensures r.timeBlocked == s.timeBlocked
    ensures r.fixTimestamp == s.fixTimestamp
  {
    match e
    case PvtEvt(read) => HandlePvt(s, read)
    case FixEvt(now) => HandleFix(cfg, s, now)
    case NmeaEvt(alloc, read) => HandleNmea(s, alloc, read)
    case AgpsReqEvt(read) => HandleAgpsReq(cfg, s, read)
    case OtherEvt => s
  }
}

=== FILE: gnss.dfy ===
/** The parts of the modem library's GNSS interface (`nrf_modem_gnss.h`) that
    the sample's logic reads: the PVT frame's flag byte and satellite table,
    the A-GPS request frame, and the bit values of the flags and masks it
    tests.  The header itself is not part of this model; the bit values are
    the library's published ones, and every property proved here depends only
    on each flag being a distinct single bit. */
module Gnss {
  import opened Common

  /** `NRF_MODEM_GNSS_MAX_SATELLITES`: length of the PVT frame's `sv` table. */
  const MaxSatellites: nat := 12

  /* PVT frame `flags` bits (`NRF_MODEM_GNSS_PVT_FLAG_*`). */
  const PvtFlagFixValid: bv8 := 0x01
  const PvtFlagSleepBetweenPvt: bv8 := 0x04
  const PvtFlagDeadlineMissed: bv8 := 0x08
  const PvtFlagNotEnoughWindowTime: bv8 := 0x10

  /* Per-satellite `flags` bits (`NRF_MODEM_GNSS_SV_FLAG_*`). */
  const SvFlagUsedInFix: bv8 := 0x02
  const SvFlagUnhealthy: bv8 := 0x08

  /* A-GPS request `data_flags` bits (`NRF_MODEM_GNSS_AGPS_*_REQUEST`). */
  const AgpsGpsUtcRequest: bv32 := 0x01
  const AgpsKlobucharRequest: bv32 := 0x02
  const AgpsNequickRequest: bv32 := 0x04
  const AgpsSysTimeAndSvTowRequest: bv32 := 0x08
  const AgpsPositionRequest: bv32 := 0x10
  const AgpsIntegrityRequest: bv32 := 0x20

  /* Non-volatile data delete mask bits (`NRF_MODEM_GNSS_DELETE_*`). */
  const DeleteEphemerides: bv32 := 0x001
  const DeleteAlmanacs: bv32 := 0x002
  const DeleteIonoCorrectionData: bv32 := 0x004
  const DeleteLastGoodFix: bv32 := 0x008
  const DeleteGpsTow: bv32 := 0x010
  const DeleteGpsWeek: bv32 := 0x020
  const DeleteUtcData: bv32 := 0x040
  const DeleteTcxoOffset: bv32 := 0x080
  const DeleteGpsTowPrecision: bv32 := 0x100

  /** One entry of the PVT frame's satellite table; `sv == 0` marks an unused slot. */
  datatype SvInfo = SvInfo(sv: u16, flags: bv8)

  /** The fixed-size `sv[NRF_MODEM_GNSS_MAX_SATELLITES]` array. */
  type SvTable = t: seq<SvInfo> | |t| == MaxSatellites
    witness seq(12, _ => SvInfo(0, 0))

  /** `struct nrf_modem_gnss_pvt_data_frame`, reduced to what the sample's
      logic inspects (the floating-point solution is only printed). */
  datatype Pvt = Pvt(flags: bv8, sv: SvTable)

  /** `struct nrf_modem_gnss_agps_data_frame`. */
  datatype AgpsRequest = AgpsRequest(svMaskEphe: bv32, svMaskAlm: bv32, dataFlags: bv32)

  predicate HasFlag8(flags: bv8, bit: bv8)
  {
    flags & bit != 0
  }

  predicate HasFlag32(flags: bv32, bit: bv32)
  {
    flags & bit != 0
  }

  function EmptyPvt(): Pvt
  {
    Pvt(0, seq(12, _ => SvInfo(0, 0)))
  }

  function EmptyAgpsRequest(): AgpsRequest
  {
    AgpsRequest(0, 0, 0)
  }
}

=== FILE: kernel.dfy ===
/** The two Zephyr kernel objects the sample uses to hand data from the GNSS
    event context to the main loop, as values: a counting semaphore with a
    limit (`k_sem`) and a bounded FIFO message queue (`k_msgq`).  Only the
    non-blocking forms (`K_NO_WAIT`) appear here; the blocking wait of
    `k_poll` is the caller's business. */
module Kernel {
  import opened Common

  /* ---------------- k_sem ---------------- */

  /** `k_sem_give`: the count rises by one unless it already sits at the limit. */
  function SemGive(count: nat, limit: nat): (r: nat)
    requires count <= limit
    ensures count <= r <= limit
    ensures r > 0 <==> limit > 0
    ensures r == count ==> count == limit
    ensures r == Min(count + 1, limit)
  {
    if count != limit then count + 1 else count
  }

  datatype TakeResult = TakeResult(count: nat, taken: bool)

  /** `k_sem_take(sem, K_NO_WAIT)`: succeeds exactly when the count is positive. */
  function SemTake(count: nat): (r: TakeResult)
    ensures r.taken <==> count > 0
    ensures r.count + (if r.taken then 1 else 0) == count
  {
    if count > 0 then TakeResult(count - 1, true) else TakeResult(count, false)
  }

  /** `n` gives in a row, with no take in between. */
  function SemGiveMany(count: nat, limit: nat, n: nat): (r: nat)
    requires count <= limit
    ensures r <= limit
  {
    if n == 0 then count else SemGive(SemGiveMany(count, limit, n - 1), limit)
  }

  /** Gives saturate: `n` gives leave the count at `min(count + n, limit)`. */
  lemma {:induction false} SemGiveManySaturates(count: nat, limit: nat, n: nat)
    requires count <= limit
    ensures SemGiveMany(count, limit, n) == Min(count + n, limit)
  {
    if n > 0 {
      SemGiveManySaturates(count, limit, n - 1);
    }
  }

  /** A take undoes one give from an empty semaphore: give then take round-trips. */
  lemma SemGiveTakeRoundTrip(limit: nat)
    requires limit > 0
    ensures SemTake(SemGive(0, limit)) == TakeResult(0, true)
  {
  }

  /* ---------------- k_msgq ---------------- */

  datatype PutResult<T> = PutResult(queue: seq<T>, ok: bool)

  /** `k_msgq_put(q, x, K_NO_WAIT)`: append when there is room, otherwise
      fail at once and leave the queue as it was. */
  function MsgqPut<T>(q: seq<T>, capacity: nat, x: T): (r: PutResult<T>)
    ensures r.ok <==> |q| < capacity
    ensures r.ok ==> r.queue == q + [x]
    ensures !r.ok ==> r.queue == q
    ensures |q| <= capacity ==> |r.queue| <= capacity
  {
    if |q| < capacity then PutResult(q + [x], true) else PutResult(q, false)
  }

  datatype GetResult<T> = GetResult(queue: seq<T>, item: Option<T>)

  /** `k_msgq_get(q, &x, K_NO_WAIT)`: remove the oldest message, if any. */
  function MsgqGet<T>(q: seq<T>): (r: GetResult<T>)
    ensures r.item.None? <==> q == []
    ensures r.item.Some? ==> [r.item.value] + r.queue == q
  {
    if q == [] then GetResult(q, None) else GetResult(q[1..], Some(q[0]))
  }

  /** A message put on a queue comes out after everything already in it:
      getting from `q + [x]` yields the head of `q`, or `x` if `q` was empty. */
  lemma MsgqFifo<T>(q: seq<T>, capacity: nat, x: T)
    requires |q| < capacity
    ensures q == [] ==> MsgqGet(MsgqPut(q, capacity, x).queue) == GetResult([], Some(x))
    ensures q != [] ==> MsgqGet(MsgqPut(q, capacity, x).queue) == GetResult(q[1..] + [x], Some(q[0]))
  {
    if q != [] {
      assert (q + [x])[1..] == q[1..] + [x];
    }
  }

  /** A burst of puts with no get in between. */
  function MsgqPutAll<T>(q: seq<T>, capacity: nat, xs: seq<T>): seq<T>
    decreases |xs|
  {
    if xs == [] then q
    else MsgqPutAll(MsgqPut(q, capacity, xs[0]).queue, capacity, xs[1..])
  }

  /** Of a burst, exactly the messages that fit are kept, in order; the rest
      are dropped. */
  lemma {:induction false} MsgqPutAllKeepsPrefix<T>(q: seq<T>, capacity: nat, xs: seq<T>)
    requires |q| <= capacity
    ensures MsgqPutAll(q, capacity, xs) == q + xs[..Min(|xs|, capacity - |q|)]
    decreases |xs|
  {
    if xs != [] {
      var q1 := MsgqPut(q, capacity, xs[0]).queue;
      MsgqPutAllKeepsPrefix(q1, capacity, xs[1..]);
      if |q| < capacity {
        assert xs[1..][..Min(|xs| - 1, capacity - |q1|)] == xs[1..Min(|xs|, capacity - |q|)];
        assert q1 + xs[1..Min(|xs|, capacity - |q|)] == q + xs[..Min(|xs|, capacity - |q|)];
      } else {
        assert capacity - |q1| == 0;
      }
    }
  }
}

=== FILE: satellites.dfy ===
/** The counting half of `print_satellite_stats`: how many satellite slots of
    a PVT frame are in use, used in the fix, and flagged unhealthy. */
module Satellites {
  import opened Common
  import opened Gnss

  datatype SatStats = SatStats(tracked: nat, inFix: nat, unhealthy: nat)

  predicate Tracked(e: SvInfo)
  {
    e.sv > 0
  }

  /** What one table entry adds to the three counters. */
  function Tally(acc: SatStats, e: SvInfo): SatStats
  {
    if Tracked(e) then
      SatStats(acc.tracked + 1,
               acc.inFix + (if HasFlag8(e.flags, SvFlagUsedInFix) then 1 else 0),
               acc.unhealthy + (if HasFlag8(e.flags, SvFlagUnhealthy) then 1 else 0))
    else acc
  }

  /** The counters after scanning `t` from the front. */
  function Count(t: seq<SvInfo>): (r: SatStats)
    ensures r.inFix <= r.tracked <= |t|
    ensures r.unhealthy <= r.tracked
  {
    if t == [] then SatStats(0, 0, 0) else Tally(Count(t[..|t| - 1]), t[|t| - 1])
  }

  /** The indices of the table's slots that hold a satellite. */
  function TrackedSlots(t: seq<SvInfo>): set<nat>
  {
    set i: nat | i < |t| && Tracked(t[i])
  }

  function InFixSlots(t: seq<SvInfo>): set<nat>
  {
    set i: nat | i < |t| && Tracked(t[i]) && HasFlag8(t[i].flags, SvFlagUsedInFix)
  }

  function UnhealthySlots(t: seq<SvInfo>): set<nat>
  {
    set i: nat | i < |t| && Tracked(t[i]) && HasFlag8(t[i].flags, SvFlagUnhealthy)
  }

  lemma SlotsOfSnoc(t: seq<SvInfo>, e: SvInfo)
    ensures TrackedSlots(t + [e]) == TrackedSlots(t) + (if Tracked(e) then {|t|} else {})
    ensures InFixSlots(t + [e]) == InFixSlots(t)
              + (if Tracked(e) && HasFlag8(e.flags, SvFlagUsedInFix) then {|t|} else {})
    ensures UnhealthySlots(t + [e]) == UnhealthySlots(t)
              + (if Tracked(e) && HasFlag8(e.flags, SvFlagUnhealthy) then {|t|} else {})
  {
  }

  /** The counters are the sizes of the slot sets they describe: only
      entries with `sv > 0` are counted, each once. */
  lemma {:induction false} CountIsSlotCardinality(t: seq<SvInfo>)
    ensures Count(t).tracked == |TrackedSlots(t)|
    ensures Count(t).inFix == |InFixSlots(t)|
    ensures Count(t).unhealthy == |UnhealthySlots(t)|
  {
    if t == [] {
      assert TrackedSlots(t) == {};
      assert InFixSlots(t) == {};
      assert UnhealthySlots(t) == {};
    } else {
      var p, e := t[..|t| - 1], t[|t| - 1];
      assert t == p + [e];
      CountIsSlotCardinality(p);
      SlotsOfSnoc(p, e);
      assert |p| !in TrackedSlots(p);
      assert |p| !in InFixSlots(p);
      assert |p| !in UnhealthySlots(p);
    }
  }

  /** The loop of `print_satellite_stats` over a PVT frame's table, with
      `uint8_t` counters (which cannot wrap: there are only twelve slots). */
  method SatelliteStats(pvt: Pvt) returns (tracked: u8, inFix: u8, unhealthy: u8)
    ensures SatStats(tracked, inFix, unhealthy) == Count(pvt.sv)
    ensures inFix <= tracked <= MaxSatellites
    ensures unhealthy <= tracked
  {
    tracked, inFix, unhealthy := 0, 0, 0;
    var i := 0;
    while i < MaxSatellites
      invariant 0 <= i <= MaxSatellites
      invariant SatStats(tracked, inFix, unhealthy) == Count(pvt.sv[..i])
    {
      assert pvt.sv[..i + 1][..i] == pvt.sv[..i];
      if pvt.sv[i].sv > 0 {
        tracked := tracked + 1;
        if pvt.sv[i].flags & SvFlagUsedInFix != 0 {
          inFix := inFix + 1;
        }
        if pvt.sv[i].flags & SvFlagUnhealthy != 0 {
          unhealthy := unhealthy + 1;
        }
      }
      i := i + 1;
    }
    assert pvt.sv[..MaxSatellites] == pvt.sv;
  }
}

=== FILE: state.dfy ===
/** The sample's build options and its global state, gathered into one
    immutable record that every handler, work function and main-loop
    iteration maps to a successor.  Frames are identified by the address
    `k_malloc` returned for them (`FrameId`); `heap` holds the live ones. */
module SampleState {
  import opened Common
  import opened Gnss

  /** The Kconfig options whose `#if`/`IS_ENABLED` tests change the core's
      behaviour (`CONFIG_GNSS_SAMPLE_*`).  The code tests SUPL and MINIMAL
      independently, so they are independent here too. */
  datatype Config = Config(
    assistanceNone: bool,   // ASSISTANCE_NONE
    supl: bool,             // ASSISTANCE_SUPL
    minimal: bool,          // ASSISTANCE_MINIMAL
    ttffTest: bool,         // MODE_TTFF_TEST
    coldStart: bool,        // MODE_TTFF_TEST_COLD_START
    nmeaOnly: bool,         // NMEA_ONLY
    logLevelOff: bool,      // LOG_LEVEL_OFF
    ttffIntervalS: nat      // MODE_TTFF_TEST_INTERVAL, in seconds
  )

  /** Capacity of `nmea_queue` (`K_MSGQ_DEFINE(..., 10, 4)`). */
  const NmeaQueueCapacity: nat := 10

  /** Limit of `pvt_data_sem` (`K_SEM_DEFINE(pvt_data_sem, 0, 1)`). */
  const PvtSemLimit: nat := 1

  /** Nominal delay of `ttff_test_got_fix_work` after a fix, in milliseconds. */
  const GotFixDelayMs: nat := 100

  type FrameId = nat

  /** The work items the sample submits to `gnss_work_q`. */
  datatype WorkItem = AgpsDataGet | TtffGotFix | TtffPrepare | TtffStart

  /** One `k_work_submit_to_queue` / `k_work_schedule_for_queue` call. */
  datatype Submission = Submission(item: WorkItem, delayMs: nat)

  datatype State = State(
    nmeaQueue: seq<FrameId>,         // nmea_queue: frame pointers, oldest first
    heap: map<FrameId, string>,      // live NMEA frames and their text
    lastPvt: Pvt,                    // last_pvt
    pvtSem: nat,                     // pvt_data_sem count
    lastAgps: AgpsRequest,           // last_agps
    requestingAssistance: bool,      // requesting_assistance
    timeToFix: u32,                  // time_to_fix
    timeBlocked: u32,                // time_blocked
    fixTimestamp: nat,               // fix_timestamp, in uptime milliseconds
    searchCount: u8,                 // main()'s cnt
    workLog: seq<Submission>,        // everything submitted to gnss_work_q, in order
    fetchLog: seq<AgpsRequest>,      // every request handed to assistance_request()
    deleteLog: seq<bv32>             // every mask handed to nrf_modem_gnss_nv_data_delete()
  )

  /** The state at the top of `main`'s loop, `fix_timestamp` taken at `start`.
      In TTFF mode `gnss_init_and_start` has already scheduled the first
      `prepare`, at once; otherwise it started the receiver and submitted nothing. */
  function Init(cfg: Config, start: nat): (s: State)
    ensures Inv(s)
    ensures s.workLog == if cfg.ttffTest then [Submission(TtffPrepare, 0)] else []
    ensures s.fetchLog == [] && s.deleteLog == [] && s.fixTimestamp == start
    ensures s.nmeaQueue == [] && s.heap == map[] && s.pvtSem == 0
    ensures s.searchCount == 0 && s.timeBlocked == 0 && s.timeToFix == 0
    ensures !s.requestingAssistance
  {
    var work := if cfg.ttffTest then [Submission(TtffPrepare, 0)] else [];
    State([], map[], EmptyPvt(), 0, EmptyAgpsRequest(), false, 0, 0, start, 0, work, [], [])
  }

  predicate Distinct(q: seq<FrameId>)
  {
    forall i, j :: 0 <= i < j < |q| ==> q[i] != q[j]
  }

  /** Resource ownership: every live frame is owned by exactly one queue slot,
      and every queued pointer is live.  No frame is leaked, none dangles. */
  predicate FramesOwned(s: State)
  {
    && Distinct(s.nmeaQueue)
    && (forall id | id in s.heap :: id in s.nmeaQueue)
    && (forall id | id in s.nmeaQueue :: id in s.heap)
  }

  /** The invariant every atomic step preserves. */
  predicate Inv(s: State)
  {
    && |s.nmeaQueue| <= NmeaQueueCapacity
    && FramesOwned(s)
    && s.pvtSem <= PvtSemLimit
    && !s.requestingAssistance
  }
}

=== FILE: system.dfy ===
/** The sample as a transition system: every handler invocation, main-loop
    iteration and work item is one atomic step over the shared state.  The
    lemmas here relate steps to each other: the ownership and bounded-queue
    invariant, PVT coalescing across many events, burst-and-drain of NMEA
    frames, the TTFF cycle, and the output pause around an assistance fetch. */
module System {
  import opened Common
  import opened Gnss
  import opened SampleState
  import Kernel
  import Agps
  import Ttff
  import Dispatcher
  import Consumer

  datatype Step =
    | Dispatch(e: Dispatcher.Event)               // gnss_event_handler
    | Consume(env: Consumer.Env)                  // one iteration of main's loop
    | RunAgpsDataGet(fetchOk: bool)               // agps_data_get_work_fn
    | RunPrepare(deleteOk: bool)                  // ttff_test_prepare_work_fn
    | RunStart(startOk: bool, now: nat)           // ttff_test_start_work_fn
    | RunGotFix                                   // ttff_test_got_fix_work_fn

  /** A step can happen: its inputs are well formed and its code is compiled in. */
  predicate StepEnabled(cfg: Config, s: State, step: Step)
  {
    match step
    case Dispatch(e) => Dispatcher.EventWellFormed(cfg, s, e)
    case Consume(_) => true
    case RunAgpsDataGet(_) => !cfg.assistanceNone
    case RunPrepare(_) => cfg.ttffTest
    case RunStart(_, _) => cfg.ttffTest
    case RunGotFix => cfg.ttffTest
  }

  function Next(cfg: Config, s: State, step: Step): State
    requires Inv(s)
    requires StepEnabled(cfg, s, step)
  {
    match step
    case Dispatch(e) => Dispatcher.HandleEvent(cfg, s, e)
    case Consume(env) => Consumer.ConsumerStep(cfg, s, env).state
    case RunAgpsDataGet(ok) => Agps.AgpsDataGetWork(cfg, s, ok)
    case RunPrepare(ok) => Ttff.Prepare(cfg, s, ok)
    case RunStart(ok, now) => Ttff.Start(s, ok, now)
    case RunGotFix => s
  }

  /* ---------------- frame ownership and the bounded queue ---------------- */

  /** No leaks in the NMEA path: the allocated frame is live afterwards
      exactly when it was queued, which is exactly when the read succeeded
      and the queue had room; ownership and the bound are kept. */
  lemma HandleNmeaKeepsOwnership(s: State, alloc: Option<FrameId>, read: Option<string>)
    requires Inv(s)
    requires alloc.Some? ==> alloc.value !in s.heap
    ensures Inv(Dispatcher.HandleNmea(s, alloc, read))
    ensures alloc.Some? ==>
              var r := Dispatcher.HandleNmea(s, alloc, read);
              && (alloc.value in r.heap <==> alloc.value in r.nmeaQueue)
              && (alloc.value in r.nmeaQueue <==> read.Some? && |s.nmeaQueue| < NmeaQueueCapacity)
              && |r.heap| == |s.heap| + (if alloc.value in r.heap then 1 else 0)
  {
  }

  /** The consumer's dequeue hands the frame over and frees it: ownership
      and the bound are kept. */
  lemma ConsumerStepKeepsInv(cfg: Config, s: State, env: Consumer.Env)
    requires Inv(s)
    ensures Inv(Consumer.ConsumerStep(cfg, s, env).state)
  {
    if s.nmeaQueue != [] {
      DequeueKeepsOwnership(s.nmeaQueue, s.heap);
    }
  }

  /** Ownership survives dequeuing the head and freeing it. */
  lemma DequeueKeepsOwnership(q: seq<FrameId>, h: map<FrameId, string>)
    requires q != [] && Distinct(q)
    requires forall id | id in h :: id in q
    requires forall id | id in q :: id in h
    ensures Distinct(q[1..])
    ensures forall id | id in h - {q[0]} :: id in q[1..]
    ensures forall id | id in q[1..] :: id in h - {q[0]}
  {
    forall id | id in h - {q[0]}
      ensures id in q[1..]
    {
      var i :| 0 <= i < |q| && q[i] == id;
      assert q[1..][i - 1] == id;
    }
  }

  /** Every step keeps the invariant: at most ten queued frames, each live
      frame owned by exactly one queue slot, at most one pending PVT, and
      no assistance fetch in progress between steps. */
  lemma NextPreservesInv(cfg: Config, s: State, step: Step)
    requires Inv(s)
    requires StepEnabled(cfg, s, step)
    ensures Inv(Next(cfg, s, step))
  {
    match step
    case Consume(env) => ConsumerStepKeepsInv(cfg, s, env);
    case Dispatch(e) =>
      if e.NmeaEvt? {
        HandleNmeaKeepsOwnership(s, e.alloc, e.nmeaRead);
      }
    case _ =>
  }

  /* ---------------- NMEA bursts and draining ---------------- */

  /** NMEA events with successful allocations and reads, no consumer step in between. */
  function NmeaBurst(s: State, ids: seq<FrameId>, texts: seq<string>): State
    requires |ids| == |texts|
    requires Distinct(ids)
    requires forall i :: 0 <= i < |ids| ==> ids[i] !in s.heap
    decreases |ids|
  {
    if ids == [] then s
    else
      var s1 := Dispatcher.HandleNmea(s, Some(ids[0]), Some(texts[0]));
      assert forall i :: 1 <= i < |ids| ==> ids[i] != ids[0];
      NmeaBurst(s1, ids[1..], texts[1..])
  }

  lemma {:induction false} NmeaBurstIsPutAll(s: State, ids: seq<FrameId>, texts: seq<string>)
    requires Inv(s)
    requires |ids| == |texts|
    requires Distinct(ids)
    requires forall i :: 0 <= i < |ids| ==> ids[i] !in s.heap
    ensures Inv(NmeaBurst(s, ids, texts))
    ensures NmeaBurst(s, ids, texts).nmeaQueue == Kernel.MsgqPutAll(s.nmeaQueue, NmeaQueueCapacity, ids)
    decreases |ids|
  {
    if ids != [] {
      HandleNmeaKeepsOwnership(s, Some(ids[0]), Some(texts[0]));
      var s1 := Dispatcher.HandleNmea(s, Some(ids[0]), Some(texts[0]));
      assert forall i :: 1 <= i < |ids| ==> ids[i] != ids[0];
      NmeaBurstIsPutAll(s1, ids[1..], texts[1..]);
    }
  }

  /** A burst of frames into the queue keeps exactly the ones that fit, in
      arrival order; every other frame is freed, so the live frames are
      exactly the queued ones. */
  lemma NmeaBurstKeepsFirstThatFit(s: State, ids: seq<FrameId>, texts: seq<string>)
    requires Inv(s)
    requires |ids| == |texts|
    requires Distinct(ids)
    requires forall i :: 0 <= i < |ids| ==> ids[i] !in s.heap
    ensures var r := NmeaBurst(s, ids, texts);
            && r.nmeaQueue == s.nmeaQueue + ids[..Min(|ids|, NmeaQueueCapacity - |s.nmeaQueue|)]
            && Inv(r)
  {
    NmeaBurstIsPutAll(s, ids, texts);
    Kernel.MsgqPutAllKeepsPrefix(s.nmeaQueue, NmeaQueueCapacity, ids);
  }

  datatype Drained = Drained(state: State, taken: seq<FrameId>, shown: seq<string>)

  /** Successive main-loop iterations, collecting the frames they dequeue
      and the NMEA text they print. */
  function Drain(cfg: Config, s: State, envs: seq<Consumer.Env>): Drained
    requires Inv(s)
    decreases |envs|
  {
    if envs == [] then Drained(s, [], [])
    else
      var step := Consumer.ConsumerStep(cfg, s, envs[0]);
      ConsumerStepKeepsInv(cfg, s, envs[0]);
      var rest := Drain(cfg, step.state, envs[1..]);
      Drained(rest.state,
              (if step.out.frameTaken.Some? then [step.out.frameTaken.value] else []) + rest.taken,
              (if step.out.nmeaShown.Some? then [step.out.nmeaShown.value] else []) + rest.shown)
  }

  /** One unfolding of `Drain`, stated over the state after the first
      iteration, `next`, with that step's own facts about the queue. */
  lemma DrainUnfold(cfg: Config, s: State, envs: seq<Consumer.Env>) returns (next: State)
    requires Inv(s)
    requires envs != []
    ensures next == Consumer.ConsumerStep(cfg, s, envs[0]).state
    ensures Inv(next)
    ensures var d := Drain(cfg, s, envs);
            var rest := Drain(cfg, next, envs[1..]);
            && d.state == rest.state
            && (s.nmeaQueue == [] ==> d.taken == rest.taken && d.shown == rest.shown
                                      && next.nmeaQueue == [])
            && (s.nmeaQueue != [] ==>
                  && d.taken == [s.nmeaQueue[0]] + rest.taken
                  && next.nmeaQueue == s.nmeaQueue[1..]
                  && next.heap == s.heap - {s.nmeaQueue[0]})
            && (s.nmeaQueue != [] && !envs[0].activeAtNmea ==>
                  d.shown == [s.heap[s.nmeaQueue[0]]] + rest.shown)
  {
    next := Consumer.ConsumerStep(cfg, s, envs[0]).state;
  }

  /** Draining keeps the invariant. */
  lemma {:induction false} DrainKeepsInv(cfg: Config, s: State, envs: seq<Consumer.Env>)
    requires Inv(s)
    ensures Inv(Drain(cfg, s, envs).state)
    decreases |envs|
  {
    if envs != [] {
      var next := DrainUnfold(cfg, s, envs);
      DrainKeepsInv(cfg, next, envs[1..]);
    }
  }

  /** The consumer takes frames in the order they were queued, one per
      iteration, frees each, and leaves the rest of the queue as it was. */
  lemma {:induction false} DrainIsFifo(cfg: Config, s: State, envs: seq<Consumer.Env>)
    requires Inv(s)
    ensures var d := Drain(cfg, s, envs);
            var n := Min(|envs|, |s.nmeaQueue|);
            && d.taken == s.nmeaQueue[..n]
            && d.state.nmeaQueue == s.nmeaQueue[n..]
    decreases |envs|
  {
    if envs != [] {
      var next := DrainUnfold(cfg, s, envs);
      DrainIsFifo(cfg, next, envs[1..]);
      var q, n := s.nmeaQueue, Min(|envs|, |s.nmeaQueue|);
      if q != [] {
        assert Min(|envs[1..]|, |next.nmeaQueue|) == n - 1;
        TakeAfterHead(q, n);
      } else {
        assert n == 0 && Min(|envs[1..]|, |next.nmeaQueue|) == 0;
      }
    }
  }

  /** Slicing facts for one dequeue: taking `n` from `q` is its head and
      `n - 1` from its tail; what then remains is the same. */
  lemma TakeAfterHead<T>(q: seq<T>, n: nat)
    requires 1 <= n <= |q|
    ensures [q[0]] + q[1..][..n - 1] == q[..n]
    ensures q[1..][n - 1..] == q[n..]
  {
  }

  /** While output is not paused, each iteration that takes a frame prints
      one text. */
  lemma {:induction false} DrainShowsOnePerFrame(cfg: Config, s: State, envs: seq<Consumer.Env>)
    requires Inv(s)
    requires forall k :: 0 <= k < |envs| ==> !envs[k].activeAtNmea
    ensures |Drain(cfg, s, envs).shown| == Min(|envs|, |s.nmeaQueue|)
    decreases |envs|
  {
    if envs != [] {
      var next := DrainUnfold(cfg, s, envs);
      var tail := envs[1..];
      assert forall k :: 0 <= k < |tail| ==> !tail[k].activeAtNmea;
      DrainShowsOnePerFrame(cfg, next, tail);
      if s.nmeaQueue != [] {
        assert Min(|tail|, |next.nmeaQueue|) == Min(|envs|, |s.nmeaQueue|) - 1;
      } else {
        assert Min(|tail|, |next.nmeaQueue|) == 0;
      }
    }
  }

  /** While output is not paused, draining prints each queued frame's text,
      in queue order. */
  lemma {:induction false} DrainShowsTextsInOrder(cfg: Config, s: State, envs: seq<Consumer.Env>)
    requires Inv(s)
    requires forall k :: 0 <= k < |envs| ==> !envs[k].activeAtNmea
    ensures var d := Drain(cfg, s, envs);
            var n := Min(|envs|, |s.nmeaQueue|);
            && |d.shown| == n
            && forall k :: 0 <= k < n ==> d.shown[k] == s.heap[s.nmeaQueue[k]]
    decreases |envs|
  {
    if envs != [] {
      var next := DrainUnfold(cfg, s, envs);
      var tail := envs[1..];
      assert forall k :: 0 <= k < |tail| ==> !tail[k].activeAtNmea;
      DrainShowsTextsInOrder(cfg, next, tail);
      DrainShowsOnePerFrame(cfg, s, envs);
      var n := Min(|envs|, |s.nmeaQueue|);
      var d, rest := Drain(cfg, s, envs), Drain(cfg, next, tail);
      if s.nmeaQueue != [] {
        assert Min(|tail|, |next.nmeaQueue|) == n - 1;
        assert d.shown == [s.heap[s.nmeaQueue[0]]] + rest.shown;
        ShownAfterHead(s.nmeaQueue, s.heap, n, rest.shown, next.nmeaQueue, next.heap);
      } else {
        assert n == 0 && Min(|tail|, |next.nmeaQueue|) == 0;
        assert d.shown == rest.shown;
      }
    }
  }

  /** Index facts for one dequeue: the text printed first is the head's,
      and the texts printed after it are those of the tail, read from the
      heap without the freed head. */
  lemma ShownAfterHead(q: seq<FrameId>, h: map<FrameId, string>, n: nat, restShown: seq<string>,
                       nextQ: seq<FrameId>, nextH: map<FrameId, string>)
    requires 1 <= n <= |q|
    requires Distinct(q)
    requires forall id | id in q :: id in h
    requires nextQ == q[1..] && nextH == h - {q[0]}
    requires |restShown| == n - 1
    requires forall k :: 0 <= k < n - 1 ==> restShown[k] == nextH[nextQ[k]]
    ensures forall k :: 0 <= k < n ==> ([h[q[0]]] + restShown)[k] == h[q[k]]
  {
    forall k | 0 <= k < n
      ensures ([h[q[0]]] + restShown)[k] == h[q[k]]
    {
      if k > 0 {
        assert q[k] != q[0];
        assert restShown[k - 1] == nextH[q[k]];
      }
    }
  }

  /** A burst of more frames than the queue holds, from an empty queue,
      followed by as many iterations: exactly the first ten are delivered,
      in order, and no frame is left allocated. */
  lemma BurstThenDrainDeliversFirstTen(cfg: Config, s: State, ids: seq<FrameId>,
                                       texts: seq<string>, envs: seq<Consumer.Env>)
    requires Inv(s) && s.nmeaQueue == []
    requires |ids| == |texts|
    requires Distinct(ids)
    requires forall i :: 0 <= i < |ids| ==> ids[i] !in s.heap
    requires |envs| >= |ids|
    ensures var b := NmeaBurst(s, ids, texts);
            && Inv(b)
            && var d := Drain(cfg, b, envs);
            && d.taken == ids[..Min(|ids|, NmeaQueueCapacity)]
            && d.state.nmeaQueue == []
            && d.state.heap == map[]
  {
    NmeaBurstKeepsFirstThatFit(s, ids, texts);
    var b := NmeaBurst(s, ids, texts);
    assert b.nmeaQueue == ids[..Min(|ids|, NmeaQueueCapacity)];
    assert Min(|envs|, |b.nmeaQueue|) == |b.nmeaQueue|;
    DrainIsFifo(cfg, b, envs);
    DrainKeepsInv(cfg, b, envs);
    var d := Drain(cfg, b, envs);
    assert d.state.nmeaQueue == [];
    assert d.state.heap.Keys == {};
  }

  /* ---------------- PVT coalescing ---------------- */

  /** PVT events with these read outcomes, no consumer step in between. */
  function PvtEvents(s: State, outcomes: seq<Option<Pvt>>): (r: State)
    requires s.pvtSem <= PvtSemLimit
    ensures r.pvtSem <= PvtSemLimit
    ensures r.(lastPvt := s.lastPvt, pvtSem := s.pvtSem) == s
    decreases |outcomes|
  {
    if outcomes == [] then s
    else Dispatcher.HandlePvt(PvtEvents(s, outcomes[..|outcomes| - 1]), outcomes[|outcomes| - 1])
  }

  /** The last successful read among the outcomes, scanning from the end. */
  function LastRead(outcomes: seq<Option<Pvt>>): Option<Pvt>
    decreases |outcomes|
  {
    if outcomes == [] then None
    else if outcomes[|outcomes| - 1].Some? then outcomes[|outcomes| - 1]
    else LastRead(outcomes[..|outcomes| - 1])
  }

  /** `LastRead` finds a read iff there is one. */
  lemma {:induction false} LastReadFindsAny(outcomes: seq<Option<Pvt>>)
    ensures LastRead(outcomes).Some? <==> exists i :: 0 <= i < |outcomes| && outcomes[i].Some?
    decreases |outcomes|
  {
    if outcomes != [] && outcomes[|outcomes| - 1].None? {
      var p := outcomes[..|outcomes| - 1];
      LastReadFindsAny(p);
      if exists i :: 0 <= i < |outcomes| && outcomes[i].Some? {
        var i :| 0 <= i < |outcomes| && outcomes[i].Some?;
        assert p[i].Some?;
      }
      if exists i :: 0 <= i < |p| && p[i].Some? {
        var i :| 0 <= i < |p| && p[i].Some?;
        assert outcomes[i].Some?;
      }
    }
  }

  /** The read `LastRead` finds has no successful read after it. */
  lemma {:induction false} LastReadIsLast(outcomes: seq<Option<Pvt>>)
    ensures LastRead(outcomes).Some? ==>
              exists i :: 0 <= i < |outcomes| && outcomes[i] == LastRead(outcomes)
                          && forall j :: i < j < |outcomes| ==> outcomes[j].None?
    decreases |outcomes|
  {
    if outcomes != [] {
      var last := |outcomes| - 1;
      if outcomes[last].Some? {
        assert outcomes[last] == LastRead(outcomes);
      } else {
        var p := outcomes[..last];
        LastReadIsLast(p);
        if LastRead(p).Some? {
          var i :| 0 <= i < |p| && p[i] == LastRead(p) && forall j :: i < j < |p| ==> p[j].None?;
          assert outcomes[i] == LastRead(outcomes);
          assert forall j :: i < j < |outcomes| ==> outcomes[j].None? by {
            forall j | i < j < |outcomes|
              ensures outcomes[j].None?
            {
              if j < last {
                assert outcomes[j] == p[j];
              }
            }
          }
        }
      }
    }
  }

  /** PVT events leave the slot holding the last successful read, and the
      flag raised iff there was one (or it already was). */
  lemma {:induction false} PvtEventsFollowLastRead(s: State, outcomes: seq<Option<Pvt>>)
    requires s.pvtSem <= PvtSemLimit
    ensures PvtEvents(s, outcomes).pvtSem == if LastRead(outcomes).Some? then 1 else s.pvtSem
    ensures PvtEvents(s, outcomes).lastPvt ==
              if LastRead(outcomes).Some? then LastRead(outcomes).value else s.lastPvt
    decreases |outcomes|
  {
    if outcomes != [] {
      PvtEventsFollowLastRead(s, outcomes[..|outcomes| - 1]);
    }
  }

  /** However many PVT events arrive before the consumer runs, at most one
      notification is pending; it is pending iff some read succeeded, and
      the slot then holds the last successfully read frame.  Nothing else
      in the state changes. */
  lemma PvtCoalesces(s: State, outcomes: seq<Option<Pvt>>)
    requires s.pvtSem <= PvtSemLimit
    ensures var r := PvtEvents(s, outcomes);
            && (r.pvtSem == 1 <==> s.pvtSem == 1 || exists i :: 0 <= i < |outcomes| && outcomes[i].Some?)
            && ((exists i :: 0 <= i < |outcomes| && outcomes[i].Some?) ==>
                  exists i :: 0 <= i < |outcomes| && outcomes[i] == Some(r.lastPvt)
                              && forall j :: i < j < |outcomes| ==> outcomes[j].None?)
            && ((forall i :: 0 <= i < |outcomes| ==> outcomes[i].None?) ==> r.lastPvt == s.lastPvt)
  {
    LastReadFindsAny(outcomes);
    LastReadIsLast(outcomes);
    PvtEventsFollowLastRead(s, outcomes);
  }

  /** The consumer then sees that last frame once, and clears the flag. */
  lemma ConsumerSeesLatestPvt(cfg: Config, s: State, outcomes: seq<Option<Pvt>>, env: Consumer.Env)
    requires Inv(s)
    requires exists i :: 0 <= i < |outcomes| && outcomes[i].Some?
    ensures var r := PvtEvents(s, outcomes);
            var c := Consumer.ConsumerStep(cfg, r, env);
            && c.out.pvtTaken == Some(r.lastPvt)
            && c.state.pvtSem == 0
  {
    PvtCoalesces(s, outcomes);
  }

  /* ---------------- the TTFF cycle ---------------- */

  /** `time_blocked` is reset only by a successful `start`, and otherwise
      moves only in a main-loop iteration that takes a PVT outside the
      render branch in TTFF mode with the deadline-missed flag set, by one. */
  lemma TimeBlockedChanges(cfg: Config, s: State, step: Step)
    requires Inv(s)
    requires StepEnabled(cfg, s, step)
    ensures var r := Next(cfg, s, step);
            && (step.RunStart? && step.startOk ==> r.timeBlocked == 0)
            && (step.Consume? ==>
                  r.timeBlocked ==
                    if s.pvtSem > 0 && !Consumer.RendersPvt(cfg, s, step.env) && cfg.ttffTest
                       && HasFlag8(s.lastPvt.flags, PvtFlagDeadlineMissed)
                    then Inc32(s.timeBlocked) else s.timeBlocked)
            && (!(step.RunStart? && step.startOk) && !step.Consume? ==>
                  r.timeBlocked == s.timeBlocked)
  {
  }

  /** One successful cycle: `prepare` queues `start` (behind the all-data
      fetch under cold start with assistance); `start` opens the window;
      the FIX event measures from it and queues exactly one report and one
      next `prepare`, the latter after the configured interval. */
  lemma TtffCycle(cfg: Config, s: State, t0: nat, t1: nat)
    requires Inv(s)
    requires cfg.ttffTest
    requires t0 <= t1
    ensures var s1 := Next(cfg, s, RunPrepare(true));
            var s2 := Next(cfg, s1, RunStart(true, t0));
            var s3 := Next(cfg, s2, Dispatch(Dispatcher.FixEvt(t1)));
            && s3.timeBlocked == 0
            // so the got_fix report shows the time to fix and no blocked time
            && Ttff.GotFixReport(s3) == Ttff.Report(Ttff.TimeToFix(t0, t1), None)
            && s3.timeToFix == Ttff.TimeToFix(t0, t1)
            && s3.workLog == s.workLog
                             + (if cfg.coldStart && !cfg.assistanceNone
                                then [Submission(AgpsDataGet, 0)] else [])
                             + [Submission(TtffStart, 0),
                                Submission(TtffGotFix, GotFixDelayMs),
                                Submission(TtffPrepare, cfg.ttffIntervalS * 1000)]
  {
  }

  /** The measurement origin is shared with the main loop: in TTFF mode with
      rendering on, an iteration that shows a valid fix moves `fix_timestamp`
      to its own uptime, so a FIX event handled at that same uptime measures
      a time to fix of zero, whatever `start` recorded. */
  lemma RenderedFixMovesTtffOrigin(cfg: Config, s: State, env: Consumer.Env)
    requires Inv(s)
    requires cfg.ttffTest
    requires s.pvtSem == 1
    requires Consumer.RendersPvt(cfg, s, env)
    requires HasFlag8(s.lastPvt.flags, PvtFlagFixValid)
    ensures var c := Consumer.ConsumerStep(cfg, s, env).state;
            && c.fixTimestamp == env.now
            && Dispatcher.HandleFix(cfg, c, env.now).timeToFix == 0
  {
  }

  /** A failed cold-start delete ends the cycle: `prepare` submits nothing. */
  lemma FailedColdStartSubmitsNothing(cfg: Config, s: State)
    requires Inv(s)
    requires cfg.ttffTest && cfg.coldStart
    ensures Next(cfg, s, RunPrepare(false)).workLog == s.workLog
  {
  }

  /* ---------------- assistance fetch and output pause ---------------- */

  /** What an A-GPS request event stores is what the work item it submits
      then fetches, unless a filter drops it; the fetch is submitted once. */
  lemma AgpsRequestIsWhatGetsFetched(cfg: Config, s: State, req: AgpsRequest, fetchOk: bool)
    requires Inv(s)
    requires !cfg.assistanceNone
    ensures var s1 := Next(cfg, s, Dispatch(Dispatcher.AgpsReqEvt(Some(req))));
            && s1.workLog == s.workLog + [Submission(AgpsDataGet, 0)]
            && Inv(s1)
            && var s2 := Next(cfg, s1, RunAgpsDataGet(fetchOk));
               && s2.fetchLog == s.fetchLog + (if Agps.Ignored(cfg, req) then [] else [req])
               && !s2.requestingAssistance
  {
  }

  /** While the fetch is in progress, a main-loop iteration prints nothing
      (unless logging is off), though it still consumes and frees; once the
      work function returns, the flag is down again whatever the fetch did. */
  lemma FetchPausesOutput(cfg: Config, s: State, env: Consumer.Env, fetchOk: bool)
    requires Inv(s)
    requires !cfg.assistanceNone && !cfg.logLevelOff
    requires !Agps.Ignored(cfg, s.lastAgps)
    ensures var mid := Agps.AgpsWorkBegin(cfg, s);
            var c := Consumer.ConsumerStep(cfg, mid, env);
            && c.out.pvtShown.None?
            && c.out.nmeaShown.None?
            && (s.nmeaQueue != [] ==>
                  c.out.frameTaken == Some(s.nmeaQueue[0]) && s.nmeaQueue[0] !in c.state.heap)
            && !Agps.AgpsWorkEnd(c.state, fetchOk).requestingAssistance
  {
  }
}

=== FILE: ttff.dfy ===
/** The time-to-first-fix test cycle, run on `gnss_work_q`: `prepare` stops
    the receiver, optionally wipes its stored data (cold start) and queues
    the assistance fetch, then queues `start`; `start` restarts the receiver
    and opens the measurement window; the FIX event (in the dispatcher)
    queues `got_fix` to report and the next `prepare`. */
module Ttff {
  import opened Common
  import opened Gnss
  import opened SampleState
  import Agps

  /** The kinds of stored receiver data a delete mask can name. */
  datatype NvItem = Ephemerides | Almanacs | IonoCorrection | LastGoodFix | GpsTow
                  | GpsWeek | UtcData | TcxoOffset | GpsTowPrecision

  function NvItemBit(i: NvItem): bv32
  {
    match i
    case Ephemerides => DeleteEphemerides
    case Almanacs => DeleteAlmanacs
    case IonoCorrection => DeleteIonoCorrectionData
    case LastGoodFix => DeleteLastGoodFix
    case GpsTow => DeleteGpsTow
    case GpsWeek => DeleteGpsWeek
    case UtcData => DeleteUtcData
    case TcxoOffset => DeleteTcxoOffset
    case GpsTowPrecision => DeleteGpsTowPrecision
  }

  predicate Deletes(mask: bv32, i: NvItem)
  {
    HasFlag32(mask, NvItemBit(i))
  }

  /** The mask `ttff_test_force_cold_start` hands to
      `nrf_modem_gnss_nv_data_delete`. */
  function ColdStartDeleteMask(cfg: Config): (mask: bv32)
    ensures !Deletes(mask, TcxoOffset)
    ensures Deletes(mask, Almanacs) <==> !cfg.minimal
    ensures Deletes(mask, Ephemerides) && Deletes(mask, IonoCorrection)
    ensures Deletes(mask, LastGoodFix) && Deletes(mask, GpsTow) && Deletes(mask, GpsWeek)
    ensures Deletes(mask, UtcData) && Deletes(mask, GpsTowPrecision)
    // No bit outside the stored items the library names.
    ensures mask & !(DeleteEphemerides | DeleteAlmanacs | DeleteIonoCorrectionData
                     | DeleteLastGoodFix | DeleteGpsTow | DeleteGpsWeek | DeleteUtcData
                     | DeleteTcxoOffset | DeleteGpsTowPrecision) == 0
  {
    var all := DeleteEphemerides | DeleteAlmanacs | DeleteIonoCorrectionData
               | DeleteLastGoodFix | DeleteGpsTow | DeleteGpsWeek | DeleteUtcData
               | DeleteGpsTowPrecision;
    if cfg.minimal then all & !DeleteAlmanacs else all
  }

  /** The stored data a cold start keeps: the TCXO offset always, the
      factory almanac too under minimal assistance. */
  function ColdStartKeeps(cfg: Config): set<NvItem>
  {
    if cfg.minimal then {TcxoOffset, Almanacs} else {TcxoOffset}
  }

  /** The mask names exactly the items the cold start does not keep. */
  lemma ColdStartDeletesAllButKept(cfg: Config, i: NvItem)
    ensures Deletes(ColdStartDeleteMask(cfg), i) <==> i !in ColdStartKeeps(cfg)
  {
  }

  /** `ttff_test_prepare_work_fn`.  `deleteOk` is the result of the non-volatile
      data delete; the receiver stop, and the start/stop pair used without
      cold start, do not affect the core's state. */
  function Prepare(cfg: Config, s: State, deleteOk: bool): (r: State)
    requires cfg.ttffTest
    // The delete is issued exactly when cold start is on, with the cold-start mask.
    ensures cfg.coldStart ==> r.deleteLog == s.deleteLog + [ColdStartDeleteMask(cfg)]
    ensures !cfg.coldStart ==> r.deleteLog == s.deleteLog
    // A failed cold-start delete aborts the cycle: nothing is submitted.
    ensures cfg.coldStart && !deleteOk ==> r == s.(deleteLog := r.deleteLog)
    // Otherwise `start` is submitted, preceded by the all-data fetch under cold start.
    ensures !cfg.coldStart || deleteOk ==>
              r.workLog == s.workLog
                           + (if cfg.coldStart && !cfg.assistanceNone
                              then [Submission(AgpsDataGet, 0)] else [])
                           + [Submission(TtffStart, 0)]
    ensures !cfg.coldStart || deleteOk ==>
              r.lastAgps == (if cfg.coldStart && !cfg.assistanceNone
                             then Agps.AllDataRequest() else s.lastAgps)
    ensures r.(workLog := s.workLog, lastAgps := s.lastAgps, deleteLog := s.deleteLog) == s
  {
    if cfg.coldStart && !deleteOk then
      s.(deleteLog := s.deleteLog + [ColdStartDeleteMask(cfg)])
    else
      var s1 := if cfg.coldStart
                then s.(deleteLog := s.deleteLog + [ColdStartDeleteMask(cfg)])
                else s;
      var s2 := if !cfg.assistanceNone && cfg.coldStart
                then s1.(lastAgps := Agps.AllDataRequest(),
                         workLog := s1.workLog + [Submission(AgpsDataGet, 0)])
                else s1;
      s2.(workLog := s2.workLog + [Submission(TtffStart, 0)])
  }

  /** `ttff_test_start_work_fn`.  `startOk` is the receiver start's result and
      `now` the uptime at which it returned. */
  function Start(s: State, startOk: bool, now: nat): (r: State)
    ensures !startOk ==> r == s
    ensures startOk ==> r.timeBlocked == 0 && r.fixTimestamp == now
    ensures r.(timeBlocked := s.timeBlocked, fixTimestamp := s.fixTimestamp) == s
  {
    if !startOk then s else s.(fixTimestamp := now, timeBlocked := 0)
  }

  /** What `ttff_test_got_fix_work_fn` logs: the time to fix, and the time
      blocked by LTE only when it is nonzero. */
  datatype Report = Report(timeToFix: u32, timeBlocked: Option<u32>)

  function GotFixReport(s: State): Report
  {
    Report(s.timeToFix, if s.timeBlocked > 0 then Some(s.timeBlocked) else None)
  }

  /** `time_to_fix = (k_uptime_get() - fix_timestamp) / 1000` in whole seconds,
      stored into a `uint32_t`. */
  function TimeToFix(fixTimestamp: nat, now: nat): (t: u32)
    requires fixTimestamp <= now
    ensures now - fixTimestamp < 1000 * U32Modulus ==>
              t * 1000 <= now - fixTimestamp < (t + 1) * 1000
  {
    TruncU32((now - fixTimestamp) / 1000)
  }
}
